=== FILE: README.md ===
# mabl deployment runner: a verified model of its trigger-and-poll loop

This project models the core of the mabl Jenkins plugin's `MablStepDeploymentRunner`.
The runner asks the mabl service to create a deployment event for an environment and
an application. It then polls the event's execution results until every plan is in a
terminal status, and judges the final snapshot for success. It releases its REST client
on every exit path. Finally it turns the way the run ended into the step's boolean,
using two tolerance flags: `continueOnPlanFailure` and `continueOnMablError`.

The remote service is a `Script`. This is the reply to the create call followed by one
`PollStep` per turn of the poll loop. Each reply is an `IOException` (`IOFailure`), a
null result (`Absent`) or a value (`Present`). A turn is either an interrupted sleep
(`SleepInterrupted`) or a completed fetch (`Fetched`). A run is recorded as an
`Execution` holding:

- the `Outcome` (`Ok`, `Interrupted`, `SystemError`, `PlanFailure`, `Unexpected`);
- the number of fetches made;
- the client operations in order (create, fetches, `Close`);
- the output lines, as abstract `Event`s;
- the snapshot the success decision was taken from.

`Call` wraps this with the start banner, the failure diagnostics, the completion banner
and the boolean verdict.

Modules:

- `Domain` (domain.dfy): snapshots, plan summaries, journeys, replies, script, client
  operations, output events, outcomes.
- `Statuses` (statuses.dfy): ASCII lower-casing, the terminal-status set, the
  accumulating conjunction behind `allPlansComplete` / `allPlansSuccess`, and
  `safePlanName`.
- `Reports` (reports.dfy): the per-poll status update and the final-status report.
- `Runner` (runner.dfy): the poll loop, `execute`, the outcome mapping and `call`.
- `RunnerProperties` (properties.dfy): where the loop stops, how failures are
  classified, that the client is closed exactly once, and how the flags decide.
- `Scenarios` (scenarios.dfy): example statuses and end-to-end runs.

Three behaviours of the code are kept exactly, although a reader might expect otherwise:

- An interruption during the sleep is swallowed inside `execute`, so `call` returns
  `true` rather than surfacing the cancellation.
- The client is closed only when it is non-null. A null client makes the create call
  throw a `NullPointerException`, which `call` catches as an unexpected exception. That
  run closes nothing.
- A null `CreateDeploymentResult` throws when its `id` is read. That exception is not an
  `IOException`, so the run ends as `Unexpected` (governed by `continueOnMablError`),
  and the client is still closed.

## Model

| member | source | states |
|---|---|---|
| Statuses.Lower | src/main/java/com/mabl/integration/jenkins/MablStepDeploymentRunner.java:142 | lower-casing keeps the length, maps every character through ASCII lower-casing and leaves no upper-case letter |
| Statuses.CompleteStatusIgnoresCase | src/main/java/com/mabl/integration/jenkins/MablStepDeploymentRunner.java:142 | a status and its lower-cased form are classified alike, so the terminal test is case-insensitive |
| Statuses.Conjoin | src/main/java/com/mabl/integration/jenkins/MablStepDeploymentRunner.java:139-144 | the `acc &= p(x)` fold is true exactly when the initial accumulator is true and every element satisfies the test |
| Statuses.ConjoinAppend | src/main/java/com/mabl/integration/jenkins/MablStepDeploymentRunner.java:141-143 | folding a concatenation equals folding the second part starting from the accumulator the first part produced |
| Statuses.AllPlansComplete | src/main/java/com/mabl/integration/jenkins/MablStepDeploymentRunner.java:137-145 | true iff every plan's lower-cased status is one of succeeded, failed, cancelled, completed, terminated (so true for no plans, false if any one plan is outside the set) |
| Statuses.AllPlansSuccess | src/main/java/com/mabl/integration/jenkins/MablStepDeploymentRunner.java:147-155 | true iff every plan's success flag is true (true for no plans, false if any one flag is false) |
| Statuses.SafePlanName | src/main/java/com/mabl/integration/jenkins/MablStepDeploymentRunner.java:185-190 | the plan's name when the plan and its name are both present, otherwise "<Unknown Plan>"; never any other string |
| Reports.FinalReport | src/main/java/com/mabl/integration/jenkins/MablStepDeploymentRunner.java:157-164 | a header then one line per plan in order, with its safe name, raw status, and SUCCESSFUL exactly when that plan's own success flag is set; so every line reads SUCCESSFUL iff the snapshot is judged successful |
| Reports.StatusReportListsEveryPlan | src/main/java/com/mabl/integration/jenkins/MablStepDeploymentRunner.java:166-175 | a status update names every plan exactly once, in snapshot order, with its safe name and status; journey lines are never taken for plan lines |
| Reports.StatusReportListsEveryJourney | src/main/java/com/mabl/integration/jenkins/MablStepDeploymentRunner.java:166-175 | a status update writes one line per journey of every plan, with the journey's id and status, plan after plan and in each plan's journey order |
| Reports.PollReportsAppend | src/main/java/com/mabl/integration/jenkins/MablStepDeploymentRunner.java:102-113 | the status updates for a concatenation of snapshots are the updates of the first part followed by those of the second, in order |
| Reports.PollReportsHeaders | src/main/java/com/mabl/integration/jenkins/MablStepDeploymentRunner.java:166-175 | the updates for n snapshots contain exactly n status-update headers and no final-report header |
| Reports.FinalReportHeaders | src/main/java/com/mabl/integration/jenkins/MablStepDeploymentRunner.java:157-164 | the final report contains its header exactly once and no status-update header |
| RunnerProperties.LoopReportsPrefix | src/main/java/com/mabl/integration/jenkins/MablStepDeploymentRunner.java:102-113 | while every turn so far fetched an incomplete snapshot, the loop is still running (it ends as interrupted when the turns run out) and what it has reported is a prefix of what any longer run reports |
| RunnerProperties.LongerRunExtendsOutput | src/main/java/com/mabl/integration/jenkins/MablStepDeploymentRunner.java:89-113 | while every turn so far fetched an incomplete snapshot, the lines written so far are a prefix of the lines of any continuation of the run: later polls only append |
| Runner.PollLoop | src/main/java/com/mabl/integration/jenkins/MablStepDeploymentRunner.java:100-113 | the do-while loop passes exactly the leading turns that fetched an incomplete snapshot and stops at the first other turn; the exit and the number of fetches follow that turn; the reported snapshots are the fetched ones, in order |
| Runner.AfterCreate | src/main/java/com/mabl/integration/jenkins/MablStepDeploymentRunner.java:89-119 | after a successful create, a complete final snapshot gives Ok iff all plans succeeded and PlanFailure otherwise; a null fetch gives a system error without a cause, an IOException one with a cause, and an interruption ends normally; the output is the two trigger lines (the second naming the deployment id), then the status updates of the fetched snapshots in poll order, one per fetch that returned a snapshot, then, exactly when the run was judged, the final report of the very snapshot it was judged on, and nothing else |
| Runner.Execute | src/main/java/com/mabl/integration/jenkins/MablStepDeploymentRunner.java:86-135 | a present client is closed once, as the last client operation; a null client is never touched and the run is Unexpected; a failed or null create makes no fetch and writes only the first trigger line; a judged run is Ok iff its complete final snapshot is fully successful; after a successful create the output is the trigger lines naming the deployment id, the status updates of the fetched snapshots in poll order, and the final report of the judged snapshot exactly when the run was judged |
| Runner.Diagnostics | src/main/java/com/mabl/integration/jenkins/MablStepDeploymentRunner.java:177-183 | diagnostics are written exactly when a failure was caught, and consist only of diagnostic lines |
| Runner.StepEvents | src/main/java/com/mabl/integration/jenkins/MablStepDeploymentRunner.java:62-83 | the start banner comes first and the completion banner last, exactly once; between them come the run's lines unchanged and then the diagnostics; a diagnostic appears iff one was produced, and the diagnostic lines written are exactly those produced |
| Runner.Call | src/main/java/com/mabl/integration/jenkins/MablStepDeploymentRunner.java:61-84 | the step fails only on a caught failure; a failure is reported iff one was caught; the lines of execute follow the start banner unchanged, then only the failure's diagnostics, so the diagnostic lines written are exactly those of the outcome; the completion banner closes the output on every path |
| RunnerProperties.LoopEndsAtFirstNonPending | src/main/java/com/mabl/integration/jenkins/MablStepDeploymentRunner.java:102-113 | when the turns before k all fetched incomplete snapshots and turn k did not, the loop passes exactly k turns |
| RunnerProperties.StopsAtFirstCompleteSnapshot | src/main/java/com/mabl/integration/jenkins/MablStepDeploymentRunner.java:102-119 | polling stops at the first complete snapshot; fetches = its index + 1; that snapshot is the final one and decides Ok versus PlanFailure; only the close follows |
| RunnerProperties.NullSnapshotIsSystemError | src/main/java/com/mabl/integration/jenkins/MablStepDeploymentRunner.java:104-109 | a null fetch result is a system error naming the deployment id, with no fetch after it |
| RunnerProperties.FetchFailureIsSystemError | src/main/java/com/mabl/integration/jenkins/MablStepDeploymentRunner.java:104-128 | an IOException from a fetch becomes the API system error with a cause, with no fetch after it |
| RunnerProperties.InterruptionIsSwallowed | src/main/java/com/mabl/integration/jenkins/MablStepDeploymentRunner.java:121-125 | an interrupted sleep ends the loop before its fetch, the client is still closed, and the step returns true |
| RunnerProperties.CreateFailureMakesNoPoll | src/main/java/com/mabl/integration/jenkins/MablStepDeploymentRunner.java:94-128 | an IOException from the create call is a system error with a cause; nothing is fetched, the client is closed, and the verdict is continueOnMablError |
| RunnerProperties.CloseExactlyOnce | src/main/java/com/mabl/integration/jenkins/MablStepDeploymentRunner.java:130-134 | on every path, close is called exactly once when the client is present and never when it is null |
| RunnerProperties.PlanFailureIffSomePlanFailed | src/main/java/com/mabl/integration/jenkins/MablStepDeploymentRunner.java:117-119 | once the run is judged, a plan failure is raised iff some plan of the final snapshot did not succeed |
| RunnerProperties.VerdictByOutcome | src/main/java/com/mabl/integration/jenkins/MablStepDeploymentRunner.java:62-83 | normal end and swallowed interruption give true; a system error and an unexpected exception give continueOnMablError; a plan failure gives continueOnPlanFailure |
| RunnerProperties.TolerantStepAlwaysPasses | src/main/java/com/mabl/integration/jenkins/MablStepDeploymentRunner.java:68-79 | with both tolerance flags set, the step returns true whatever the service does |
| RunnerProperties.StrictStepPassesIffNoFailure | src/main/java/com/mabl/integration/jenkins/MablStepDeploymentRunner.java:62-83 | with neither flag set, the step returns true iff execute returned normally |
| RunnerProperties.VerdictMonotoneInFlags | src/main/java/com/mabl/integration/jenkins/MablStepDeploymentRunner.java:68-79 | tolerating more never turns a passing step into a failing one |
| RunnerProperties.ExecuteIgnoresFlags | src/main/java/com/mabl/integration/jenkins/MablStepDeploymentRunner.java:86-135 | execute never reads the tolerance flags: configurations that agree on the client and the two ids give the same run |
| RunnerProperties.DiagnosticsReportTheError | src/main/java/com/mabl/integration/jenkins/MablStepDeploymentRunner.java:177-183 | a system error or a plan failure is reported first by its own message; a cause trace is written iff the failure is a system error with a cause; an unexpected exception is reported as such |
| RunnerProperties.NullSnapshotReportsNotFound | src/main/java/com/mabl/integration/jenkins/MablStepDeploymentRunner.java:106-108 | a null fetch result makes the step write the not-found message naming the deployment id, and no cause trace |
| Scenarios.UpperCaseSucceededIsTerminal | src/main/java/com/mabl/integration/jenkins/MablStepDeploymentRunner.java:142 | "SUCCEEDED" is terminal |
| Scenarios.SucceededIsTerminal | src/main/java/com/mabl/integration/jenkins/MablStepDeploymentRunner.java:24-30 | "succeeded" is terminal |
| Scenarios.FailedIsTerminal | src/main/java/com/mabl/integration/jenkins/MablStepDeploymentRunner.java:24-30 | "failed" is terminal |
| Scenarios.NotTerminalByLength | src/main/java/com/mabl/integration/jenkins/MablStepDeploymentRunner.java:24-30 | a status whose length matches none of the five terminal statuses is never terminal, in any letter case |
| Scenarios.NonTerminalStatuses | src/main/java/com/mabl/integration/jenkins/MablStepDeploymentRunner.java:24-30 | "running" and "pending" are not terminal |
| Scenarios.ScenarioTwoPollsSucceed | src/main/java/com/mabl/integration/jenkins/MablStepDeploymentRunner.java:94-119 | two plans in a non-terminal status, then both terminal and successful: two fetches, Ok, verdict true, no diagnostic, one close |
| Scenarios.ScenarioPlanFails | src/main/java/com/mabl/integration/jenkins/MablStepDeploymentRunner.java:113-119 | one unsuccessful plan in a terminal status at the first fetch: one fetch, plan failure, verdict continueOnPlanFailure, a diagnostic, one close |
| Scenarios.ScenarioRunningThenSucceeded | src/main/java/com/mabl/integration/jenkins/MablStepDeploymentRunner.java:94-119 | both plans "running", then both "succeeded": two fetches, Ok, verdict true |
| Scenarios.ScenarioFailedStatus | src/main/java/com/mabl/integration/jenkins/MablStepDeploymentRunner.java:113-119 | one plan "failed" and unsuccessful at the first fetch: plan failure, verdict continueOnPlanFailure |
| Scenarios.ScenarioDeploymentNotFound | src/main/java/com/mabl/integration/jenkins/MablStepDeploymentRunner.java:106-109 | a null fetch: a system error, verdict continueOnMablError, one close |
| Scenarios.ScenarioCreateFails | src/main/java/com/mabl/integration/jenkins/MablStepDeploymentRunner.java:127-128 | a failed create: no fetch, a system error, verdict continueOnMablError, one close |

## Left out

- Sleeping and the polling interval: only the chance that the sleep is interrupted is kept, as the `SleepInterrupted` turn. The interval is assumed non-negative; the code that constructs the runner is not part of this model. With a non-negative interval, timing does not affect any decision. A negative interval would make `Thread.sleep` throw `IllegalArgumentException` before the first fetch. Neither handler inside `execute` catches it, so the client would be closed and `call` would take the unexpected-exception path and return `continueOnMablError`. The model has no turn for this.
- Re-setting the thread's interrupt flag and the stack trace printed on interruption: the trace goes to the process's error stream, not to the step's output stream.
- The unbounded loop: a script is finite. When the script runs out, the model treats it as the caller's deadline interrupting the next sleep, so the run ends as `Interrupted`.
- The REST client and the domain classes `CreateDeploymentResult` and `ExecutionResult`: they are not part of this model. Their observable behaviour is the scripted replies. Runtime exceptions other than `IOException` thrown inside the client (and so inside `createDeploymentEvent` or `getExecutionResults`) are not scripted.
- The exception classes `MablSystemError` and `MablPlanExecutionFailure` are not part of this model. The model assumes that neither is a subclass of `IOException`. If one were, the `IOException` handler around the create call and the poll loop would rewrap the not-found error and the plan failure as the API error with a cause.
- Null `status`, null `executions` and null `journeyExecutions` fields: these are modelled as always present. In the code a null would throw a `NullPointerException` and take the unexpected-exception path.
- `String.toLowerCase` is locale-sensitive and Unicode-aware. The model lower-cases ASCII letters only.
- Output formatting: lines are abstract events, not the `printf` text. The plugin name in the unexpected-exception line comes from `MablStepConstants`, which is not part of this model. Exception messages and the cause's stack trace are reduced to `ErrorMessage` and `CauseTrace`. On the unexpected-exception path, the header line and the exception's own stack trace are folded into the single `UnexpectedException` event.
- Statuses.ConjoinAppend: the Java loop has no early exit, which only shows when a later plan's status is null (it throws even after an earlier plan was found incomplete). Null statuses are not modelled (see above), so the model states only the algebra of the fold, not the absence of short-circuiting.
- The Jenkins constructor wiring and the Guava `ImmutableSet`: the terminal set is a plain Dafny set constant.

=== FILE: domain.dfy ===
/**
 The data the deployment runner consumes and produces: the remote execution
 snapshot and its plan summaries, the scripted replies of the REST client, the
 client operations the runner performs and the lines it writes to its output
 stream (as abstract events rather than formatted text).
 */
module Domain {

  /** A Java reference that may be null. */
  datatype Option<+T> = None | Some(value: T)

  /** The plan descriptor attached to a summary; its name may be null. */
  datatype PlanDescriptor = PlanDescriptor(name: Option<string>)

  /** One journey (sub-test) run inside a plan. */
  datatype JourneyExecution = JourneyExecution(id: string, status: string)

  /** One plan's run: raw status, success flag, optional descriptor, journeys. */
  datatype ExecutionSummary = ExecutionSummary(
    status: string,
    success: bool,
    plan: Option<PlanDescriptor>,
    journeyExecutions: seq<JourneyExecution>
  )

  /** A point-in-time snapshot of the remote deployment's plan executions. */
  datatype ExecutionResult = ExecutionResult(executions: seq<ExecutionSummary>)

  /** What one client call yields: an IOException, a null result, or a value. */
  datatype Reply<+T> = IOFailure | Absent | Present(value: T)

  /** One turn of the poll loop: either the sleep before the fetch is
      interrupted, or the sleep completes and the fetch yields a reply. */
  datatype PollStep = SleepInterrupted | Fetched(reply: Reply<ExecutionResult>)

  /** The whole behaviour of the remote service for one run, in call order:
      the reply to the create call, then one step per poll turn. */
  datatype Script = Script(create: Reply<string>, steps: seq<PollStep>)

  /** The runner's construction parameters that influence its behaviour.
      `clientPresent` is false when the runner was given a null client. */
  datatype Config = Config(
    clientPresent: bool,
    environmentId: string,
    applicationId: string,
    continueOnPlanFailure: bool,
    continueOnMablError: bool
  )

  /** The operations the runner invokes on its client, in order. */
  datatype ClientOp =
    | CreateDeploymentEvent(environmentId: string, applicationId: string)
    | GetExecutionResults(deploymentId: string)
    | Close

  /** The lines the runner writes to its output stream. */
  datatype Event =
    | StartBanner
    | CreatingDeployment(environmentId: string, applicationId: string)
    | DeploymentCreated(deploymentId: string)
    | StatusUpdateHeader
    | PlanStatus(planName: string, status: string)
    | JourneyStatus(journeyId: string, status: string)
    | FinalHeader
    | FinalPlanStatus(planName: string, successful: bool, status: string)
    | ErrorMessage(message: string)
    | CauseTrace
    | UnexpectedException
    | CompletionBanner

  /** Lines that report a failure to the reader. */
  predicate IsDiagnostic(e: Event) {
    e.ErrorMessage? || e.CauseTrace? || e.UnexpectedException?
  }

  /** Lines written by `execute` itself: neither banners nor diagnostics. */
  predicate IsProgress(e: Event) {
    !(e.StartBanner? || e.CompletionBanner? || IsDiagnostic(e))
  }

  predicate AllProgress(events: seq<Event>) {
    forall i :: 0 <= i < |events| ==> IsProgress(events[i])
  }

  lemma AllProgressAppend(xs: seq<Event>, ys: seq<Event>)
    requires AllProgress(xs) && AllProgress(ys)
    ensures AllProgress(xs + ys)
  {
    assert forall i :: |xs| <= i < |xs + ys| ==> (xs + ys)[i] == ys[i - |xs|];
  }

  /** How `execute` ended: normally, by a swallowed interruption, or by one of
      the exceptions `call` catches. `hasCause` records whether a
      `MablSystemError` wraps an underlying `IOException`. */
  datatype Outcome =
    | Ok
    | Interrupted
    | SystemError(message: string, hasCause: bool)
    | PlanFailure(message: string)
    | Unexpected

  /** The outcomes that `call` has to map through a tolerance flag. */
  predicate IsFailure(o: Outcome) {
    o.SystemError? || o.PlanFailure? || o.Unexpected?
  }

  /** Number of occurrences of `x` in `xs`. */
  function Count<T(==)>(xs: seq<T>, x: T): nat
    decreases |xs|
  {
    if |xs| == 0 then 0
    else (if xs[0] == x then 1 else 0) + Count(xs[1..], x)
  }

  lemma {:induction false} CountAppend<T>(xs: seq<T>, ys: seq<T>, x: T)
    ensures Count(xs + ys, x) == Count(xs, x) + Count(ys, x)
    decreases |xs|
  {
    if |xs| == 0 {
      assert xs + ys == ys;
    } else {
      assert (xs + ys)[1..] == xs[1..] + ys;
      CountAppend(xs[1..], ys, x);
    }
  }

  /** Count is the number of positions holding `x`: absent means zero. */
  lemma {:induction false} CountAbsent<T>(xs: seq<T>, x: T)
    requires forall i :: 0 <= i < |xs| ==> xs[i] != x
    ensures Count(xs, x) == 0
    decreases |xs|
  {
    if |xs| > 0 {
      CountAbsent(xs[1..], x);
    }
  }
}

=== FILE: properties.dfy ===
/**
 Properties of the runner that relate several calls or whole scripts: where the
 poll loop stops, how each failure is classified, that the client is released
 exactly once, how the tolerance flags govern the step's boolean, and the
 end-to-end scenarios the runner is designed for.
 */
module RunnerProperties {
  import opened Domain
  import opened Statuses
  import opened Reports
  import opened Runner

  /** The script's turns before `k` all fetched a still-running snapshot. */
  predicate PendingUntil(steps: seq<PollStep>, k: nat)
    requires k <= |steps|
  {
    forall j :: 0 <= j < k ==> Pending(steps[j])
  }

  /** The loop ends at the first turn that is not pending; this follows from
      the contract of `PollLoop` alone. */
  lemma LoopEndsAtFirstNonPending(steps: seq<PollStep>, k: nat)
    requires k < |steps| && PendingUntil(steps, k) && !Pending(steps[k])
    ensures PollLoop(steps).passed == k
  {
  }

  /** Polling stops at the first complete snapshot: that snapshot is the one
      reported as final and judged for success, and exactly `k + 1` fetches
      were made, followed only by the release of the client. */
  lemma StopsAtFirstCompleteSnapshot(cfg: Config, id: string, steps: seq<PollStep>, k: nat)
    requires cfg.clientPresent
    requires k < |steps| && PendingUntil(steps, k)
    requires steps[k].Fetched? && steps[k].reply.Present? && AllPlansComplete(steps[k].reply.value)
    ensures var r := Execute(cfg, Script(Present(id), steps));
      var final := steps[k].reply.value;
      && r.polls == k + 1
      && r.final == Some(final)
      && r.outcome == (if AllPlansSuccess(final) then Ok else PlanFailure(PlanFailureMessage))
      && r.ops == [CreateDeploymentEvent(cfg.environmentId, cfg.applicationId)]
                  + Repeat(GetExecutionResults(id), k + 1) + [Close]
  {
    LoopEndsAtFirstNonPending(steps, k);
  }

  /** While every turn of `s` is pending, the loop over `s` reports a prefix
      of what the loop over any continuation `s + t` reports. */
  lemma LoopReportsPrefix(s: seq<PollStep>, t: seq<PollStep>)
    requires PendingUntil(s, |s|)
    ensures PollLoop(s).exit == LoopInterrupted
    ensures PollLoop(s).reported <= PollLoop(s + t).reported
  {
    var short := PollLoop(s);
    var long := PollLoop(s + t);
    assert forall j :: 0 <= j < |s| ==> (s + t)[j] == s[j];
    assert short.passed == |s|;
    assert long.passed >= |s|;
    assert short.reported == long.reported[..|s|];
  }

  /** The lines of a run that ended early are a prefix of those of a run
      that reported more snapshots. */
  lemma RunEventsPrefix(cfg: Config, id: string, short: Loop, long: Loop)
    requires !short.exit.LoopComplete? && short.reported <= long.reported
    ensures RunEvents(cfg, id, short) <= RunEvents(cfg, id, long)
  {
    var earlier := short.reported;
    var later := long.reported[|earlier|..];
    assert long.reported == earlier + later;
    PollReportsAppend(earlier, later);
    var trigger := [CreatingDeployment(cfg.environmentId, cfg.applicationId), DeploymentCreated(id)];
    assert RunEvents(cfg, id, short) == trigger + PollReports(earlier);
    assert trigger + PollReports(long.reported) <= RunEvents(cfg, id, long);
  }

  /** Polling longer only appends: while every turn so far found a running
      plan, the lines written are a prefix of those of any continuation of
      the run, so no status update is rewritten or reordered by later polls. */
  lemma LongerRunExtendsOutput(cfg: Config, id: string, s: seq<PollStep>, t: seq<PollStep>)
    requires PendingUntil(s, |s|)
    ensures Execute(cfg, Script(Present(id), s)).events <= Execute(cfg, Script(Present(id), s + t)).events
  {
    if cfg.clientPresent {
      LoopReportsPrefix(s, t);
      RunEventsPrefix(cfg, id, PollLoop(s), PollLoop(s + t));
      assert Execute(cfg, Script(Present(id), s)).events == RunEvents(cfg, id, PollLoop(s));
      assert Execute(cfg, Script(Present(id), s + t)).events == RunEvents(cfg, id, PollLoop(s + t));
    }
  }

  /** A null fetch result is a system error without a cause, raised at once:
      no fetch follows it. */
  lemma NullSnapshotIsSystemError(cfg: Config, id: string, steps: seq<PollStep>, k: nat)
    requires cfg.clientPresent
    requires k < |steps| && PendingUntil(steps, k) && steps[k] == Fetched(Absent)
    ensures var r := Execute(cfg, Script(Present(id), steps));
      && r.outcome == SystemError(NotFoundMessage(id), false)
      && r.polls == k + 1
      && r.ops == [CreateDeploymentEvent(cfg.environmentId, cfg.applicationId)]
                  + Repeat(GetExecutionResults(id), k + 1) + [Close]
  {
    LoopEndsAtFirstNonPending(steps, k);
  }

  /** An IOException from a fetch is wrapped as a system error with a cause,
      and no fetch follows it. */
  lemma FetchFailureIsSystemError(cfg: Config, id: string, steps: seq<PollStep>, k: nat)
    requires cfg.clientPresent
    requires k < |steps| && PendingUntil(steps, k) && steps[k] == Fetched(IOFailure)
    ensures var r := Execute(cfg, Script(Present(id), steps));
      && r.outcome == SystemError(ApiErrorMessage, true)
      && r.polls == k + 1
      && r.ops == [CreateDeploymentEvent(cfg.environmentId, cfg.applicationId)]
                  + Repeat(GetExecutionResults(id), k + 1) + [Close]
  {
    LoopEndsAtFirstNonPending(steps, k);
  }

  /** An interrupted sleep ends the loop before its fetch; the interruption
      is swallowed, the client is still released, and the step passes. */
  lemma InterruptionIsSwallowed(cfg: Config, id: string, steps: seq<PollStep>, k: nat)
    requires cfg.clientPresent
    requires k < |steps| && PendingUntil(steps, k) && steps[k] == SleepInterrupted
    ensures var r := Call(cfg, Script(Present(id), steps));
      && r.run.outcome == Interrupted
      && r.run.polls == k
      && r.run.ops == [CreateDeploymentEvent(cfg.environmentId, cfg.applicationId)]
                      + Repeat(GetExecutionResults(id), k) + [Close]
      && r.verdict
  {
    LoopEndsAtFirstNonPending(steps, k);
  }

  /** A failed create call is a system error with a cause: nothing is
      polled, the client is released, and the error flag decides. */
  lemma CreateFailureMakesNoPoll(cfg: Config, steps: seq<PollStep>)
    requires cfg.clientPresent
    ensures var r := Call(cfg, Script(IOFailure, steps));
      && r.run.outcome == SystemError(ApiErrorMessage, true)
      && r.run.polls == 0
      && r.run.ops == [CreateDeploymentEvent(cfg.environmentId, cfg.applicationId), Close]
      && r.verdict == cfg.continueOnMablError
  {
  }

  /** The client is released exactly once on every path when it is present,
      and never touched when it is null. */
  lemma CloseExactlyOnce(cfg: Config, script: Script)
    ensures Count(Execute(cfg, script).ops, Close) == (if cfg.clientPresent then 1 else 0)
  {
    var ops := Execute(cfg, script).ops;
    if cfg.clientPresent {
      var n := |ops| - 1;
      assert ops == ops[..n] + [Close];
      CountAbsent(ops[..n], Close);
      CountAppend(ops[..n], [Close], Close);
    }
  }

  /** When the run is judged, the plan-failure outcome is raised exactly when
      some plan of the final snapshot did not succeed. */
  lemma PlanFailureIffSomePlanFailed(cfg: Config, script: Script)
    requires Execute(cfg, script).final.Some?
    ensures var r := Execute(cfg, script);
      r.outcome.PlanFailure? <==>
        exists i :: 0 <= i < |r.final.value.executions| && !r.final.value.executions[i].success
  {
  }

  /** The boolean of `call` for each way `execute` can end. */
  lemma VerdictByOutcome(cfg: Config, script: Script)
    ensures var r := Call(cfg, script);
      && (r.run.outcome.Ok? ==> r.verdict)
      && (r.run.outcome.Interrupted? ==> r.verdict)
      && (r.run.outcome.SystemError? ==> r.verdict == cfg.continueOnMablError)
      && (r.run.outcome.PlanFailure? ==> r.verdict == cfg.continueOnPlanFailure)
      && (r.run.outcome.Unexpected? ==> r.verdict == cfg.continueOnMablError)
  {
  }

  /** With both tolerance flags set the step never fails. */
  lemma TolerantStepAlwaysPasses(cfg: Config, script: Script)
    requires cfg.continueOnPlanFailure && cfg.continueOnMablError
    ensures Call(cfg, script).verdict
  {
  }

  /** With neither flag set the step passes exactly when `execute` returned
      normally (a clean run or a swallowed interruption). */
  lemma StrictStepPassesIffNoFailure(cfg: Config, script: Script)
    requires !cfg.continueOnPlanFailure && !cfg.continueOnMablError
    ensures Call(cfg, script).verdict <==> !IsFailure(Execute(cfg, script).outcome)
  {
  }

  /** Tolerating more never turns a passing step into a failing one. */
  lemma VerdictMonotoneInFlags(cfg: Config, script: Script, planFlag: bool, errorFlag: bool)
    requires cfg.continueOnPlanFailure ==> planFlag
    requires cfg.continueOnMablError ==> errorFlag
    ensures Call(cfg, script).verdict ==>
              Call(cfg.(continueOnPlanFailure := planFlag, continueOnMablError := errorFlag), script).verdict
  {
    var cfg' := cfg.(continueOnPlanFailure := planFlag, continueOnMablError := errorFlag);
    ExecuteIgnoresFlags(cfg, cfg', script);
  }

  /** `execute` never reads the tolerance flags: two configurations that agree
      on the client and the ids run alike. */
  lemma ExecuteIgnoresFlags(cfg: Config, cfg': Config, script: Script)
    requires cfg'.clientPresent == cfg.clientPresent
    requires cfg'.environmentId == cfg.environmentId && cfg'.applicationId == cfg.applicationId
    ensures Execute(cfg', script) == Execute(cfg, script)
  {
    if cfg.clientPresent && script.create.Present? {
      var id := script.create.value;
      assert RunEvents(cfg', id, PollLoop(script.steps)) == RunEvents(cfg, id, PollLoop(script.steps));
    }
  }

  /** A caught failure is reported by its own message; the cause's trace
      follows exactly for a system error that has a cause; an unexpected
      exception is reported as such. */
  lemma DiagnosticsReportTheError(o: Outcome)
    ensures o.SystemError? || o.PlanFailure? ==> Diagnostics(o)[0] == ErrorMessage(o.message)
    ensures CauseTrace in Diagnostics(o) <==> o.SystemError? && o.hasCause
    ensures o.Unexpected? ==> Diagnostics(o) == [UnexpectedException]
  {
  }

  /** A null fetch result is reported with the message naming the deployment
      id, and without a cause trace. */
  lemma NullSnapshotReportsNotFound(cfg: Config, id: string, steps: seq<PollStep>, k: nat)
    requires cfg.clientPresent
    requires k < |steps| && PendingUntil(steps, k) && steps[k] == Fetched(Absent)
    ensures var r := Call(cfg, Script(Present(id), steps));
      ErrorMessage(NotFoundMessage(id)) in r.events && CauseTrace !in r.events
  {
    NullSnapshotIsSystemError(cfg, id, steps, k);
    var script := Script(Present(id), steps);
    assert Diagnostics(Call(cfg, script).run.outcome) == [ErrorMessage(NotFoundMessage(id))];
  }
}

=== FILE: reports.dfy ===
/**
 The progress lines the runner writes: the per-poll status update (every plan,
 then each of its journeys) and the final per-plan verdicts.
 */
module Reports {
  import opened Domain
  import opened Statuses

  /** The journey lines of one plan, in order. */
  function JourneyLines(journeys: seq<JourneyExecution>): (r: seq<Event>)
    ensures |r| == |journeys|
    ensures forall i :: 0 <= i < |r| ==>
              r[i] == JourneyStatus(journeys[i].id, journeys[i].status)
  {
    seq(|journeys|, i requires 0 <= i < |journeys| =>
      JourneyStatus(journeys[i].id, journeys[i].status))
  }

  /** The lines for the plans of one snapshot: each plan's line followed by
      its journeys' lines. */
  function PlanLines(plans: seq<ExecutionSummary>): seq<Event>
    decreases |plans|
  {
    if |plans| == 0 then []
    else [PlanStatus(SafePlanName(plans[0]), plans[0].status)]
         + JourneyLines(plans[0].journeyExecutions)
         + PlanLines(plans[1..])
  }

  /** One "status update" block, written after every successful fetch. */
  function StatusReport(result: ExecutionResult): seq<Event> {
    [StatusUpdateHeader] + PlanLines(result.executions)
  }

  /** The status updates of all fetched snapshots, in poll order. */
  function PollReports(snapshots: seq<ExecutionResult>): seq<Event>
    decreases |snapshots|
  {
    if |snapshots| == 0 then []
    else StatusReport(snapshots[0]) + PollReports(snapshots[1..])
  }

  /** One verdict line per plan, in order. */
  function FinalLines(plans: seq<ExecutionSummary>): (r: seq<Event>)
    ensures |r| == |plans|
    ensures forall i :: 0 <= i < |r| ==>
              r[i] == FinalPlanStatus(SafePlanName(plans[i]), plans[i].success, plans[i].status)
  {
    seq(|plans|, i requires 0 <= i < |plans| =>
      FinalPlanStatus(SafePlanName(plans[i]), plans[i].success, plans[i].status))
  }

  /** The "final plan states" block: one verdict line per plan. */
  function FinalReport(result: ExecutionResult): (r: seq<Event>)
    ensures |r| == |result.executions| + 1 && r[0] == FinalHeader
    ensures forall i :: 1 <= i < |r| ==>
              r[i].FinalPlanStatus? && r[i].status == result.executions[i - 1].status
              && r[i].planName == SafePlanName(result.executions[i - 1])
              && r[i].successful == result.executions[i - 1].success
    ensures AllPlansSuccess(result) <==>
              forall i :: 1 <= i < |r| ==> r[i].FinalPlanStatus? && r[i].successful
    ensures AllProgress(r)
  {
    var plans := result.executions;
    var lines := FinalLines(plans);
    var r := [FinalHeader] + lines;
    forall i | 1 <= i < |r|
      ensures r[i] == FinalPlanStatus(SafePlanName(plans[i - 1]), plans[i - 1].success, plans[i - 1].status)
    {
      assert r[i] == lines[i - 1];
    }
    AllSuccessfulLines(result, r);
    r
  }

  lemma AllSuccessfulLines(result: ExecutionResult, r: seq<Event>)
    requires |r| == |result.executions| + 1
    requires forall i :: 1 <= i < |r| ==> r[i].FinalPlanStatus? && r[i].successful == result.executions[i - 1].success
    ensures AllPlansSuccess(result) <==> forall i :: 1 <= i < |r| ==> r[i].FinalPlanStatus? && r[i].successful
  {
    if forall i :: 1 <= i < |r| ==> r[i].successful {
      forall j | 0 <= j < |result.executions| ensures result.executions[j].success {
        assert r[j + 1].successful;
      }
    }
  }

  /** The plan lines of a stream of events, in order. */
  function PlanStatusesOf(events: seq<Event>): seq<Event>
    decreases |events|
  {
    if |events| == 0 then []
    else (if events[0].PlanStatus? then [events[0]] else []) + PlanStatusesOf(events[1..])
  }

  lemma {:induction false} PlanStatusesOfAppend(xs: seq<Event>, ys: seq<Event>)
    ensures PlanStatusesOf(xs + ys) == PlanStatusesOf(xs) + PlanStatusesOf(ys)
    decreases |xs|
  {
    if |xs| == 0 {
      assert xs + ys == ys;
    } else {
      var head := if xs[0].PlanStatus? then [xs[0]] else [];
      assert (xs + ys)[0] == xs[0];
      assert (xs + ys)[1..] == xs[1..] + ys;
      PlanStatusesOfAppend(xs[1..], ys);
      assert PlanStatusesOf(xs + ys) == head + PlanStatusesOf(xs[1..] + ys);
      assert PlanStatusesOf(xs) == head + PlanStatusesOf(xs[1..]);
    }
  }

  lemma {:induction false} NoPlanStatusesInJourneys(journeys: seq<JourneyExecution>)
    ensures PlanStatusesOf(JourneyLines(journeys)) == []
    decreases |journeys|
  {
    var lines := JourneyLines(journeys);
    if |journeys| > 0 {
      assert lines == [lines[0]] + JourneyLines(journeys[1..]);
      PlanStatusesOfAppend([lines[0]], JourneyLines(journeys[1..]));
      NoPlanStatusesInJourneys(journeys[1..]);
    }
  }

  /** A status update names every plan exactly once, in snapshot order, with
      its fallback name and raw status; journey lines never pass for plans. */
  lemma {:induction false} StatusReportListsEveryPlan(result: ExecutionResult)
    ensures var lines := PlanStatusesOf(StatusReport(result));
      && |lines| == |result.executions|
      && forall i :: 0 <= i < |lines| ==>
           lines[i] == PlanStatus(SafePlanName(result.executions[i]), result.executions[i].status)
  {
    PlanStatusesOfAppend([StatusUpdateHeader], PlanLines(result.executions));
    assert PlanStatusesOf([StatusUpdateHeader]) == [];
    PlanLinesListEveryPlan(result.executions);
    assert PlanStatusesOf(StatusReport(result)) == PlanStatusesOf(PlanLines(result.executions));
  }

  lemma {:induction false} PlanLinesListEveryPlan(plans: seq<ExecutionSummary>)
    ensures var lines := PlanStatusesOf(PlanLines(plans));
      && |lines| == |plans|
      && forall i :: 0 <= i < |lines| ==>
           lines[i] == PlanStatus(SafePlanName(plans[i]), plans[i].status)
    decreases |plans|
  {
    if |plans| > 0 {
      var head := [PlanStatus(SafePlanName(plans[0]), plans[0].status)];
      var journeys := JourneyLines(plans[0].journeyExecutions);
      PlanStatusesOfAppend(head + journeys, PlanLines(plans[1..]));
      PlanStatusesOfAppend(head, journeys);
      NoPlanStatusesInJourneys(plans[0].journeyExecutions);
      assert PlanStatusesOf(head) == head;
      PlanLinesListEveryPlan(plans[1..]);
    }
  }

  /** Reporting a longer run extends the earlier output: nothing is
      reordered or rewritten across polls. */
  lemma {:induction false} PollReportsAppend(xs: seq<ExecutionResult>, ys: seq<ExecutionResult>)
    ensures PollReports(xs + ys) == PollReports(xs) + PollReports(ys)
    decreases |xs|
  {
    if |xs| == 0 {
      assert xs + ys == ys;
    } else {
      assert (xs + ys)[1..] == xs[1..] + ys;
      PollReportsAppend(xs[1..], ys);
    }
  }

  /** Status updates are plain progress: no banner, no diagnostic. */
  lemma {:induction false} PollReportsAreProgress(snapshots: seq<ExecutionResult>)
    ensures AllProgress(PollReports(snapshots))
    decreases |snapshots|
  {
    if |snapshots| > 0 {
      PlanLinesAreProgress(snapshots[0].executions);
      AllProgressAppend([StatusUpdateHeader], PlanLines(snapshots[0].executions));
      PollReportsAreProgress(snapshots[1..]);
      AllProgressAppend(StatusReport(snapshots[0]), PollReports(snapshots[1..]));
    }
  }

  lemma {:induction false} PlanLinesAreProgress(plans: seq<ExecutionSummary>)
    ensures AllProgress(PlanLines(plans))
    decreases |plans|
  {
    if |plans| > 0 {
      var head := [PlanStatus(SafePlanName(plans[0]), plans[0].status)];
      PlanLinesAreProgress(plans[1..]);
      AllProgressAppend(head, JourneyLines(plans[0].journeyExecutions));
      AllProgressAppend(head + JourneyLines(plans[0].journeyExecutions), PlanLines(plans[1..]));
    }
  }

  /** The lines of a status update after its header. */
  predicate IsStatusLine(e: Event) {
    e.PlanStatus? || e.JourneyStatus?
  }

  lemma {:induction false} PlanLinesAreStatusLines(plans: seq<ExecutionSummary>)
    ensures forall i :: 0 <= i < |PlanLines(plans)| ==> IsStatusLine(PlanLines(plans)[i])
    decreases |plans|
  {
    if |plans| > 0 {
      var head := [PlanStatus(SafePlanName(plans[0]), plans[0].status)] + JourneyLines(plans[0].journeyExecutions);
      var rest := PlanLines(plans[1..]);
      PlanLinesAreStatusLines(plans[1..]);
      assert PlanLines(plans) == head + rest;
      assert forall i :: |head| <= i < |head + rest| ==> (head + rest)[i] == rest[i - |head|];
    }
  }

  /** Every status update opens with exactly one header, and none writes a
      final-report header: one header per reported snapshot. */
  lemma {:induction false} PollReportsHeaders(snapshots: seq<ExecutionResult>)
    ensures Count(PollReports(snapshots), StatusUpdateHeader) == |snapshots|
    ensures Count(PollReports(snapshots), FinalHeader) == 0
    decreases |snapshots|
  {
    if |snapshots| > 0 {
      var lines := PlanLines(snapshots[0].executions);
      PlanLinesAreStatusLines(snapshots[0].executions);
      CountAbsent(lines, StatusUpdateHeader);
      CountAbsent(lines, FinalHeader);
      CountAppend([StatusUpdateHeader], lines, StatusUpdateHeader);
      CountAppend([StatusUpdateHeader], lines, FinalHeader);
      PollReportsHeaders(snapshots[1..]);
      CountAppend(StatusReport(snapshots[0]), PollReports(snapshots[1..]), StatusUpdateHeader);
      CountAppend(StatusReport(snapshots[0]), PollReports(snapshots[1..]), FinalHeader);
    }
  }

  /** The final report writes its header once and no status-update header. */
  lemma FinalReportHeaders(result: ExecutionResult)
    ensures Count(FinalReport(result), FinalHeader) == 1
    ensures Count(FinalReport(result), StatusUpdateHeader) == 0
  {
    var r := FinalReport(result);
    assert r == [FinalHeader] + r[1..];
    CountAbsent(r[1..], FinalHeader);
    CountAbsent(r[1..], StatusUpdateHeader);
    CountAppend([FinalHeader], r[1..], FinalHeader);
    CountAppend([FinalHeader], r[1..], StatusUpdateHeader);
  }

  /** The journey lines of a stream of events, in order. */
  function JourneyStatusesOf(events: seq<Event>): seq<Event>
    decreases |events|
  {
    if |events| == 0 then []
    else (if events[0].JourneyStatus? then [events[0]] else []) + JourneyStatusesOf(events[1..])
  }

  lemma {:induction false} JourneyStatusesOfAppend(xs: seq<Event>, ys: seq<Event>)
    ensures JourneyStatusesOf(xs + ys) == JourneyStatusesOf(xs) + JourneyStatusesOf(ys)
    decreases |xs|
  {
    if |xs| == 0 {
      assert xs + ys == ys;
    } else {
      var head := if xs[0].JourneyStatus? then [xs[0]] else [];
      assert (xs + ys)[0] == xs[0];
      assert (xs + ys)[1..] == xs[1..] + ys;
      JourneyStatusesOfAppend(xs[1..], ys);
      assert JourneyStatusesOf(xs + ys) == head + JourneyStatusesOf(xs[1..] + ys);
      assert JourneyStatusesOf(xs) == head + JourneyStatusesOf(xs[1..]);
    }
  }

  /** The journeys of every plan, plan after plan. */
  function AllJourneys(plans: seq<ExecutionSummary>): seq<JourneyExecution>
    decreases |plans|
  {
    if |plans| == 0 then [] else plans[0].journeyExecutions + AllJourneys(plans[1..])
  }

  lemma JourneyLinesAppend(xs: seq<JourneyExecution>, ys: seq<JourneyExecution>)
    ensures JourneyLines(xs + ys) == JourneyLines(xs) + JourneyLines(ys)
  {
    assert forall i :: |xs| <= i < |xs + ys| ==> (xs + ys)[i] == ys[i - |xs|];
  }

  lemma {:induction false} JourneyLinesAreJourneyStatuses(journeys: seq<JourneyExecution>)
    ensures JourneyStatusesOf(JourneyLines(journeys)) == JourneyLines(journeys)
    decreases |journeys|
  {
    var lines := JourneyLines(journeys);
    if |journeys| > 0 {
      assert journeys == [journeys[0]] + journeys[1..];
      JourneyLinesAppend([journeys[0]], journeys[1..]);
      JourneyStatusesOfAppend(JourneyLines([journeys[0]]), JourneyLines(journeys[1..]));
      JourneyLinesAreJourneyStatuses(journeys[1..]);
    }
  }

  lemma {:induction false} PlanLinesListEveryJourney(plans: seq<ExecutionSummary>)
    ensures JourneyStatusesOf(PlanLines(plans)) == JourneyLines(AllJourneys(plans))
    decreases |plans|
  {
    if |plans| > 0 {
      var head := [PlanStatus(SafePlanName(plans[0]), plans[0].status)];
      var journeys := JourneyLines(plans[0].journeyExecutions);
      JourneyStatusesOfAppend(head + journeys, PlanLines(plans[1..]));
      JourneyStatusesOfAppend(head, journeys);
      assert JourneyStatusesOf(head) == [];
      JourneyLinesAreJourneyStatuses(plans[0].journeyExecutions);
      PlanLinesListEveryJourney(plans[1..]);
      JourneyLinesAppend(plans[0].journeyExecutions, AllJourneys(plans[1..]));
    }
  }

  /** A status update writes one line per journey of every plan, with its id
      and status, plan after plan and in each plan's journey order. */
  lemma StatusReportListsEveryJourney(result: ExecutionResult)
    ensures var lines := JourneyStatusesOf(StatusReport(result));
      var journeys := AllJourneys(result.executions);
      && |lines| == |journeys|
      && forall i :: 0 <= i < |lines| ==> lines[i] == JourneyStatus(journeys[i].id, journeys[i].status)
  {
    var header := [StatusUpdateHeader];
    assert header[1..] == [];
    assert JourneyStatusesOf(header) == [];
    JourneyStatusesOfAppend(header, PlanLines(result.executions));
    PlanLinesListEveryJourney(result.executions);
    assert JourneyStatusesOf(StatusReport(result)) == JourneyLines(AllJourneys(result.executions));
  }
}

=== FILE: runner.dfy ===
/**
 The trigger-and-poll runner: create a deployment event, poll its execution
 results until every plan is in a terminal status, decide success, release the
 client on every exit path, and map the way it ended to the step's boolean.

 The remote service is a `Script` of replies consumed in call order; sleeping
 between polls is not modelled beyond the chance of being interrupted.
 */
module Runner {
  import opened Domain
  import opened Statuses
  import opened Reports

  const ApiErrorMessage: string := "Oh no!. There was an API error trying to run journeys in mabl."
  const PlanFailureMessage: string := "One or more plans were unsuccessful running in mabl."

  function NotFoundMessage(deploymentId: string): string {
    "Oh snap! No deployment event found for id [" + deploymentId + "] in mabl."
  }

  /** A turn after which the do-while loop polls again: the fetch yields a
      snapshot in which some plan is still running. */
  predicate Pending(step: PollStep) {
    step.Fetched? && step.reply.Present? && !AllPlansComplete(step.reply.value)
  }

  /** How the poll loop ended. */
  datatype LoopExit =
    | LoopComplete(final: ExecutionResult)
    | LoopInterrupted
    | LoopNotFound
    | LoopIOFailure

  /** The loop's exit, the number of pending turns passed before the turn that
      ended it, the number of fetches made, and the snapshots reported. */
  datatype Loop = Loop(exit: LoopExit, passed: nat, polls: nat, reported: seq<ExecutionResult>)

  /** How the loop ends at a turn that does not poll again: an interrupted
      sleep, a failed or null fetch, or a complete snapshot. */
  function ExitOf(step: PollStep): (r: LoopExit)
    requires !Pending(step)
    ensures r.LoopComplete? <==> step.Fetched? && step.reply.Present?
    ensures r.LoopComplete? ==> r.final == step.reply.value && AllPlansComplete(r.final)
    ensures r == LoopNotFound <==> step == Fetched(Absent)
    ensures r == LoopIOFailure <==> step == Fetched(IOFailure)
  {
    match step
    case SleepInterrupted => LoopInterrupted
    case Fetched(IOFailure) => LoopIOFailure
    case Fetched(Absent) => LoopNotFound
    case Fetched(Present(result)) => LoopComplete(result)
  }

  /** The do-while poll loop over the remaining script. Running out of script
      stands for the caller's deadline interrupting the next sleep. */
  function PollLoop(steps: seq<PollStep>): (r: Loop)
    ensures r.passed <= |steps|
    ensures forall j :: 0 <= j < r.passed ==> Pending(steps[j])
    ensures r.passed < |steps| ==> !Pending(steps[r.passed]) && r.exit == ExitOf(steps[r.passed])
    ensures r.passed == |steps| ==> r.exit == LoopInterrupted
    ensures r.exit.LoopComplete? <==>
              r.passed < |steps| && steps[r.passed].Fetched? && steps[r.passed].reply.Present?
    ensures r.exit.LoopComplete? ==> AllPlansComplete(r.exit.final)
    ensures r.polls == r.passed + (if r.passed < |steps| && steps[r.passed].Fetched? then 1 else 0)
    ensures |r.reported| == r.passed + (if r.exit.LoopComplete? then 1 else 0)
    ensures forall j :: 0 <= j < r.passed ==> Pending(steps[j]) && r.reported[j] == steps[j].reply.value
    ensures r.exit.LoopComplete? ==> r.reported[r.passed] == r.exit.final
    decreases |steps|
  {
    if |steps| == 0 then Loop(LoopInterrupted, 0, 0, [])
    else if !Pending(steps[0]) then
      var exit := ExitOf(steps[0]);
      Loop(exit, 0, if steps[0].Fetched? then 1 else 0, if exit.LoopComplete? then [exit.final] else [])
    else
      var tail := steps[1..];
      var rest := PollLoop(tail);
      var reported := [steps[0].reply.value] + rest.reported;
      assert forall j :: 1 <= j < |steps| ==> steps[j] == tail[j - 1];
      assert forall j :: 1 <= j <= |rest.reported| ==> reported[j] == rest.reported[j - 1];
      var r := Loop(rest.exit, rest.passed + 1, rest.polls + 1, reported);
      assert r.passed < |steps| <==> rest.passed < |tail|;
      assert r.passed < |steps| ==> steps[r.passed] == tail[rest.passed];
      r
  }

  /** `n` copies of one client operation. */
  function Repeat(op: ClientOp, n: nat): (r: seq<ClientOp>)
    ensures |r| == n && forall i :: 0 <= i < n ==> r[i] == op
  {
    seq(n, _ => op)
  }

  /** The record of one `execute` call: how it ended, how many fetches it
      made, the client operations in order, the lines it wrote, and the
      snapshot the final report and the success decision were taken from. */
  datatype Execution = Execution(
    outcome: Outcome,
    polls: nat,
    ops: seq<ClientOp>,
    events: seq<Event>,
    final: Option<ExecutionResult>
  )

  /** The ops of a run whose create call returned `id`: the create, one
      fetch per poll, and the close last. */
  function CreatedOps(create: ClientOp, id: string, polls: nat): (r: seq<ClientOp>)
    requires create != Close
    ensures |r| == polls + 2 && r[0] == create && r[polls + 1] == Close
    ensures forall i :: 1 <= i <= polls ==> r[i] == GetExecutionResults(id)
    ensures forall i :: 0 <= i < |r| ==> (r[i] == Close <==> i == |r| - 1)
  {
    var r := [create] + Repeat(GetExecutionResults(id), polls) + [Close];
    assert forall i :: 1 <= i <= polls ==> r[i] == GetExecutionResults(id);
    r
  }

  /** The part of `execute` after the create call returned `id`: the poll
      loop, the final report and the success decision. */
  function AfterCreate(cfg: Config, id: string, steps: seq<PollStep>): (r: Execution)
    ensures var loop := PollLoop(steps);
      && r.polls == loop.polls
      && r.ops == CreatedOps(CreateDeploymentEvent(cfg.environmentId, cfg.applicationId), id, loop.polls)
      && (r.final.Some? <==> loop.exit.LoopComplete?)
      && (r.final.Some? ==> r.final.value == loop.exit.final)
      && (loop.exit == LoopInterrupted ==> r.outcome == Interrupted)
      && (loop.exit == LoopIOFailure ==> r.outcome == SystemError(ApiErrorMessage, true))
      && (loop.exit == LoopNotFound ==> r.outcome == SystemError(NotFoundMessage(id), false))
    ensures r.final.Some? <==> r.outcome.Ok? || r.outcome.PlanFailure?
    ensures r.final.Some? ==> AllPlansComplete(r.final.value)
    ensures r.final.Some? ==> (r.outcome.Ok? <==> AllPlansSuccess(r.final.value))
    ensures r.outcome.PlanFailure? ==> r.outcome.message == PlanFailureMessage
    // every fetch that returned a snapshot writes one status update
    ensures Count(r.events, StatusUpdateHeader) == r.polls - (if r.outcome.SystemError? then 1 else 0)
    ensures Count(r.events, FinalHeader) == (if r.final.Some? then 1 else 0)
    // the status updates are those of the fetched snapshots, in poll order, and
    // the final report is that of the very snapshot the run was judged on
    ensures WritesRun(r.events, cfg, id, PollLoop(steps).reported, r.final)
    ensures AllProgress(r.events)
  {
    var loop := PollLoop(steps);
    var ops := CreatedOps(CreateDeploymentEvent(cfg.environmentId, cfg.applicationId), id, loop.polls);
    var events := RunEvents(cfg, id, loop);
    match loop.exit
    case LoopInterrupted => Execution(Interrupted, loop.polls, ops, events, None)
    case LoopIOFailure => Execution(SystemError(ApiErrorMessage, true), loop.polls, ops, events, None)
    case LoopNotFound => Execution(SystemError(NotFoundMessage(id), false), loop.polls, ops, events, None)
    case LoopComplete(final) =>
      var outcome := if AllPlansSuccess(final) then Ok else PlanFailure(PlanFailureMessage);
      Execution(outcome, loop.polls, ops, events, Some(final))
  }

  /** What a run whose create call returned `id` writes: the two trigger
      lines, then the status updates of the reported snapshots in poll
      order, then, for a judged run, the final report of the judged snapshot,
      and nothing else. */
  predicate WritesRun(events: seq<Event>, cfg: Config, id: string,
                      reported: seq<ExecutionResult>, final: Option<ExecutionResult>)
  {
    var updates := PollReports(reported);
    && |events| == 2 + |updates| + (if final.Some? then |FinalReport(final.value)| else 0)
    && events[0] == CreatingDeployment(cfg.environmentId, cfg.applicationId)
    && events[1] == DeploymentCreated(id)
    && events[2..2 + |updates|] == updates
    && (final.Some? ==> events[2 + |updates|..] == FinalReport(final.value))
  }

  /** The lines of a run whose create call returned `id`: the trigger lines,
      one status update per fetched snapshot, and the final report when the
      loop saw every plan complete. */
  function RunEvents(cfg: Config, id: string, loop: Loop): (r: seq<Event>)
    // one status update per reported snapshot, one final report when complete
    ensures Count(r, StatusUpdateHeader) == |loop.reported|
    ensures Count(r, FinalHeader) == (if loop.exit.LoopComplete? then 1 else 0)
    ensures WritesRun(r, cfg, id, loop.reported, if loop.exit.LoopComplete? then Some(loop.exit.final) else None)
    ensures AllProgress(r)
  {
    var trigger := [CreatingDeployment(cfg.environmentId, cfg.applicationId), DeploymentCreated(id)];
    var updates := PollReports(loop.reported);
    PollReportsAreProgress(loop.reported);
    AllProgressAppend(trigger, updates);
    PollReportsHeaders(loop.reported);
    CountAbsent(trigger, StatusUpdateHeader);
    CountAbsent(trigger, FinalHeader);
    CountAppend(trigger, updates, StatusUpdateHeader);
    CountAppend(trigger, updates, FinalHeader);
    var progress := trigger + updates;
    if loop.exit.LoopComplete? then
      var report := FinalReport(loop.exit.final);
      AllProgressAppend(progress, report);
      FinalReportHeaders(loop.exit.final);
      CountAppend(progress, report, StatusUpdateHeader);
      CountAppend(progress, report, FinalHeader);
      progress + report
    else progress
  }

  /** The runner's `execute`: trigger, poll, decide, release. */
  function Execute(cfg: Config, script: Script): (r: Execution)
    // the client is released exactly once, after every other client call
    ensures cfg.clientPresent ==>
              |r.ops| > 0 && forall i :: 0 <= i < |r.ops| ==> (r.ops[i] == Close <==> i == |r.ops| - 1)
    ensures !cfg.clientPresent ==> r.ops == [] && r.outcome == Unexpected
    // the client calls made: one create, then one fetch per poll
    ensures cfg.clientPresent ==>
              r.ops[0] == CreateDeploymentEvent(cfg.environmentId, cfg.applicationId)
              && |r.ops| == r.polls + 2
    ensures cfg.clientPresent && script.create.Present? ==>
              forall i :: 1 <= i <= r.polls ==> r.ops[i] == GetExecutionResults(script.create.value)
    // a failed or null create makes no poll
    ensures script.create == IOFailure ==>
              r.polls == 0 && (cfg.clientPresent ==> r.outcome == SystemError(ApiErrorMessage, true))
    ensures script.create == Absent ==> r.polls == 0 && r.outcome == Unexpected
    // the decision is taken on a complete snapshot, and fails iff some plan failed
    ensures r.final.Some? <==> r.outcome.Ok? || r.outcome.PlanFailure?
    ensures r.final.Some? ==> AllPlansComplete(r.final.value)
    ensures r.final.Some? ==> (r.outcome.Ok? <==> AllPlansSuccess(r.final.value))
    ensures r.outcome.PlanFailure? ==> r.outcome.message == PlanFailureMessage
    // the lines written: the trigger, one status update per snapshot fetched,
    // and the final report exactly when the run was judged
    ensures |r.events| > 0 && r.events[0] == CreatingDeployment(cfg.environmentId, cfg.applicationId)
    ensures cfg.clientPresent && script.create.Present? ==>
              WritesRun(r.events, cfg, script.create.value, PollLoop(script.steps).reported, r.final)
              && Count(r.events, StatusUpdateHeader) == r.polls - (if r.outcome.SystemError? then 1 else 0)
    ensures !(cfg.clientPresent && script.create.Present?) ==> |r.events| == 1 && r.final == None
    ensures Count(r.events, FinalHeader) == (if r.final.Some? then 1 else 0)
    ensures AllProgress(r.events)
  {
    var creating := [CreatingDeployment(cfg.environmentId, cfg.applicationId)];
    if !cfg.clientPresent then
      // a null client throws on the create call and is not closed
      Execution(Unexpected, 0, [], creating, None)
    else
      var create := CreateDeploymentEvent(cfg.environmentId, cfg.applicationId);
      match script.create
      case IOFailure => Execution(SystemError(ApiErrorMessage, true), 0, [create, Close], creating, None)
      // a null create result throws when its id is read
      case Absent => Execution(Unexpected, 0, [create, Close], creating, None)
      case Present(id) => AfterCreate(cfg, id, script.steps)
  }

  /** The boolean `call` returns for the way `execute` ended. */
  function Verdict(outcome: Outcome, continueOnPlanFailure: bool, continueOnMablError: bool): bool {
    match outcome
    case Ok => true
    case Interrupted => true
    case SystemError(_, _) => continueOnMablError
    case PlanFailure(_) => continueOnPlanFailure
    case Unexpected => continueOnMablError
  }

  /** The lines `call` writes about a caught failure. */
  function Diagnostics(outcome: Outcome): (r: seq<Event>)
    ensures |r| > 0 <==> IsFailure(outcome)
    ensures forall i :: 0 <= i < |r| ==> IsDiagnostic(r[i])
  {
    match outcome
    case SystemError(message, hasCause) => [ErrorMessage(message)] + (if hasCause then [CauseTrace] else [])
    case PlanFailure(message) => [ErrorMessage(message)]
    case Unexpected => [UnexpectedException]
    case _ => []
  }

  /** The lines of one step: the start banner, the lines of `execute`, the
      diagnostics of a caught failure, and the completion banner last. */
  function StepEvents(progress: seq<Event>, diagnostics: seq<Event>): (r: seq<Event>)
    requires AllProgress(progress)
    requires forall i :: 0 <= i < |diagnostics| ==> IsDiagnostic(diagnostics[i])
    ensures |r| >= 2 && r[0] == StartBanner && r[|r| - 1] == CompletionBanner
    ensures forall i :: 0 <= i < |r| - 1 ==> r[i] != CompletionBanner
    ensures (exists i :: 0 <= i < |r| && IsDiagnostic(r[i])) <==> |diagnostics| > 0
    ensures |r| == |progress| + |diagnostics| + 2
    ensures r[1..1 + |progress|] == progress && r[1 + |progress|..|r| - 1] == diagnostics
    // the diagnostic lines written are exactly the given ones
    ensures forall e :: IsDiagnostic(e) ==> (e in r <==> e in diagnostics)
  {
    var events := [StartBanner] + progress + diagnostics + [CompletionBanner];
    StepLinesInPlace(progress, diagnostics, events);
    StepBannersOnlyAtEnds(progress, diagnostics, events);
    events
  }

  lemma StepLinesInPlace(progress: seq<Event>, diagnostics: seq<Event>, events: seq<Event>)
    requires events == [StartBanner] + progress + diagnostics + [CompletionBanner]
    ensures |events| == |progress| + |diagnostics| + 2
    ensures forall i :: 1 <= i <= |progress| ==> events[i] == progress[i - 1]
    ensures forall i :: 0 <= i < |diagnostics| ==> events[1 + |progress| + i] == diagnostics[i]
    ensures events[1..1 + |progress|] == progress && events[1 + |progress|..|events| - 1] == diagnostics
  {
    assert forall i :: 1 <= i <= |progress| ==> events[i] == progress[i - 1];
    assert forall i :: 0 <= i < |diagnostics| ==> events[1 + |progress| + i] == diagnostics[i];
  }

  lemma StepBannersOnlyAtEnds(progress: seq<Event>, diagnostics: seq<Event>, events: seq<Event>)
    requires AllProgress(progress)
    requires forall i :: 0 <= i < |diagnostics| ==> IsDiagnostic(diagnostics[i])
    requires events == [StartBanner] + progress + diagnostics + [CompletionBanner]
    ensures forall i :: 0 <= i < |events| - 1 ==> events[i] != CompletionBanner
    ensures (exists i :: 0 <= i < |events| && IsDiagnostic(events[i])) <==> |diagnostics| > 0
    ensures forall e :: IsDiagnostic(e) ==> (e in events <==> e in diagnostics)
  {
    StepLinesInPlace(progress, diagnostics, events);
    forall i | 0 <= i < |events| - 1 ensures events[i] != CompletionBanner {
      if 1 <= i <= |progress| {
        assert IsProgress(progress[i - 1]);
      } else if i > |progress| {
        assert IsDiagnostic(diagnostics[i - 1 - |progress|]);
      }
    }
    forall i | 1 <= i <= |progress| ensures !IsDiagnostic(events[i]) {
      assert IsProgress(progress[i - 1]);
    }
    assert |diagnostics| > 0 ==> IsDiagnostic(events[1 + |progress|]);
    forall e | IsDiagnostic(e) ensures e in events <==> e in diagnostics {
      if e in events {
        var i :| 0 <= i < |events| && events[i] == e;
        assert i > |progress| && i < |events| - 1;
        assert events[i] == diagnostics[i - 1 - |progress|];
      }
    }
  }

  /** What one invocation of the step yields. */
  datatype StepResult = StepResult(verdict: bool, run: Execution, events: seq<Event>)

  /** The runner's `call`: banner, execute, map failures through the
      tolerance flags, and always close with the completion banner. */
  function Call(cfg: Config, script: Script): (r: StepResult)
    ensures r.run == Execute(cfg, script)
    ensures !r.verdict ==> IsFailure(r.run.outcome)
    ensures |r.events| >= 3 && r.events[0] == StartBanner && r.events[|r.events| - 1] == CompletionBanner
    ensures forall i :: 0 <= i < |r.events| - 1 ==> r.events[i] != CompletionBanner
    // a failure is reported before the banner, and only a failure is
    ensures IsFailure(r.run.outcome) <==> exists i :: 0 <= i < |r.events| && IsDiagnostic(r.events[i])
    // the lines of `execute` follow the start banner unchanged, and only the
    // diagnostics of a caught failure come between them and the end banner
    ensures |r.events| == |r.run.events| + |Diagnostics(r.run.outcome)| + 2
    ensures r.events[1..1 + |r.run.events|] == r.run.events
    ensures r.events[1 + |r.run.events|..|r.events| - 1] == Diagnostics(r.run.outcome)
    ensures forall e :: IsDiagnostic(e) ==> (e in r.events <==> e in Diagnostics(r.run.outcome))
  {
    var run := Execute(cfg, script);
    var events := StepEvents(run.events, Diagnostics(run.outcome));
    StepResult(Verdict(run.outcome, cfg.continueOnPlanFailure, cfg.continueOnMablError), run, events)
  }
}

=== FILE: scenarios.dfy ===
/**
 Concrete runs of the step: the classification of example statuses and the
 four end-to-end situations the runner is designed to handle.
 */
module Scenarios {
  import opened Domain
  import opened Statuses
  import opened Runner
  import opened RunnerProperties

  /** Terminal statuses are recognised in any letter case: "SUCCEEDED" ends
      the loop like "succeeded". */
  lemma UpperCaseSucceededIsTerminal()
    ensures IsCompleteStatus("SUCCEEDED")
  {
    var up := Lower("SUCCEEDED");
    forall i | 0 <= i < 9 ensures up[i] == "succeeded"[i] {
      assert up[i] == LowerChar("SUCCEEDED"[i]);
    }
    assert up == "succeeded";
  }

  /** A status whose length matches no terminal status is not terminal, in
      any letter case. */
  lemma NotTerminalByLength(status: string)
    requires |status| != 6 && |status| != 9 && |status| != 10
    ensures !IsCompleteStatus(status)
  {
    assert |Lower(status)| == |status|;
  }

  /** "succeeded" ends the loop. */
  lemma SucceededIsTerminal()
    ensures IsCompleteStatus("succeeded")
  {
    var low := Lower("succeeded");
    forall i | 0 <= i < 9 ensures low[i] == "succeeded"[i] {
      assert low[i] == LowerChar("succeeded"[i]);
    }
    assert low == "succeeded";
  }

  /** "failed" ends the loop. */
  lemma FailedIsTerminal()
    ensures IsCompleteStatus("failed")
  {
    var low := Lower("failed");
    forall i | 0 <= i < 6 ensures low[i] == "failed"[i] {
      assert low[i] == LowerChar("failed"[i]);
    }
    assert low == "failed";
  }

  /** "running" and "pending" do not end the loop. */
  lemma NonTerminalStatuses()
    ensures !IsCompleteStatus("running") && !IsCompleteStatus("pending")
  {
    NotTerminalByLength("running");
    NotTerminalByLength("pending");
  }

  function Plan(name: string, status: string, success: bool): ExecutionSummary {
    ExecutionSummary(status, success, Some(PlanDescriptor(Some(name))), [])
  }

  function StepConfig(continueOnPlanFailure: bool, continueOnMablError: bool): Config {
    Config(true, "env-1", "app-1", continueOnPlanFailure, continueOnMablError)
  }

  /** Two plans with the given statuses and success flags. */
  function TwoPlans(first: string, second: string, success: bool): ExecutionResult {
    ExecutionResult([Plan("a", first, success), Plan("b", second, success)])
  }

  /** Two running plans, then both in a terminal status with success: two
      fetches, the step passes, no diagnostic is written and the client is
      released once. With "running" and "succeeded" this is the everyday run. */
  lemma ScenarioTwoPollsSucceed(continueOnPlanFailure: bool, continueOnMablError: bool,
                                running: string, done: string)
    requires !IsCompleteStatus(running) && IsCompleteStatus(done)
    ensures var cfg := StepConfig(continueOnPlanFailure, continueOnMablError);
      var steps := [Fetched(Present(TwoPlans(running, running, false))),
                    Fetched(Present(TwoPlans(done, done, true)))];
      var r := Call(cfg, Script(Present("dep-1"), steps));
      && r.run.polls == 2
      && r.run.outcome == Ok
      && r.verdict
      && (forall i :: 0 <= i < |r.events| ==> !IsDiagnostic(r.events[i]))
      && Count(r.run.ops, Close) == 1
  {
    var cfg := StepConfig(continueOnPlanFailure, continueOnMablError);
    var first := TwoPlans(running, running, false);
    var second := TwoPlans(done, done, true);
    var steps := [Fetched(Present(first)), Fetched(Present(second))];
    assert !AllPlansComplete(first) by {
      assert first.executions[0].status == running;
    }
    assert PendingUntil(steps, 1);
    assert AllPlansSuccess(second);
    var script := Script(Present("dep-1"), steps);
    StopsAtFirstCompleteSnapshot(cfg, "dep-1", steps, 1);
    CloseExactlyOnce(cfg, script);
    var r := Call(cfg, script);
    assert r.run.outcome == Ok;
    assert !IsFailure(r.run.outcome);
  }

  /** One plan, unsuccessful and terminal at the first fetch (as with
      "failed"): a plan failure, decided by the plan-failure flag, reported
      before the banner, with one close. */
  lemma ScenarioPlanFails(continueOnPlanFailure: bool, continueOnMablError: bool, failed: string)
    requires IsCompleteStatus(failed)
    ensures var cfg := StepConfig(continueOnPlanFailure, continueOnMablError);
      var snapshot := ExecutionResult([Plan("a", failed, false)]);
      var r := Call(cfg, Script(Present("dep-1"), [Fetched(Present(snapshot))]));
      && r.run.polls == 1
      && r.run.outcome == PlanFailure(PlanFailureMessage)
      && r.verdict == continueOnPlanFailure
      && (exists i :: 0 <= i < |r.events| && IsDiagnostic(r.events[i]))
      && Count(r.run.ops, Close) == 1
  {
    var cfg := StepConfig(continueOnPlanFailure, continueOnMablError);
    var snapshot := ExecutionResult([Plan("a", failed, false)]);
    var steps := [Fetched(Present(snapshot))];
    assert !AllPlansSuccess(snapshot) by {
      assert !snapshot.executions[0].success;
    }
    StopsAtFirstCompleteSnapshot(cfg, "dep-1", steps, 0);
    CloseExactlyOnce(cfg, Script(Present("dep-1"), steps));
  }

  /** The everyday run: both plans "running", then both "succeeded". */
  lemma ScenarioRunningThenSucceeded(continueOnPlanFailure: bool, continueOnMablError: bool)
    ensures var cfg := StepConfig(continueOnPlanFailure, continueOnMablError);
      var steps := [Fetched(Present(TwoPlans("running", "running", false))),
                    Fetched(Present(TwoPlans("succeeded", "succeeded", true)))];
      var r := Call(cfg, Script(Present("dep-1"), steps));
      && r.run.polls == 2 && r.run.outcome == Ok && r.verdict
  {
    NonTerminalStatuses();
    SucceededIsTerminal();
    ScenarioTwoPollsSucceed(continueOnPlanFailure, continueOnMablError, "running", "succeeded");
  }

  /** A plan reported "failed" at the first fetch fails the step unless plan
      failures are tolerated. */
  lemma ScenarioFailedStatus(continueOnPlanFailure: bool, continueOnMablError: bool)
    ensures var cfg := StepConfig(continueOnPlanFailure, continueOnMablError);
      var snapshot := ExecutionResult([Plan("a", "failed", false)]);
      var r := Call(cfg, Script(Present("dep-1"), [Fetched(Present(snapshot))]));
      && r.run.outcome == PlanFailure(PlanFailureMessage)
      && r.verdict == continueOnPlanFailure
  {
    FailedIsTerminal();
    ScenarioPlanFails(continueOnPlanFailure, continueOnMablError, "failed");
  }

  /** The fetch finds no deployment: a system error decided by the error
      flag, with the client still released once. */
  lemma ScenarioDeploymentNotFound(continueOnPlanFailure: bool, continueOnMablError: bool)
    ensures var cfg := StepConfig(continueOnPlanFailure, continueOnMablError);
      var r := Call(cfg, Script(Present("dep-1"), [Fetched(Absent)]));
      && r.run.outcome == SystemError(NotFoundMessage("dep-1"), false)
      && r.verdict == continueOnMablError
      && Count(r.run.ops, Close) == 1
  {
    var cfg := StepConfig(continueOnPlanFailure, continueOnMablError);
    NullSnapshotIsSystemError(cfg, "dep-1", [Fetched(Absent)], 0);
    CloseExactlyOnce(cfg, Script(Present("dep-1"), [Fetched(Absent)]));
  }

  /** The create call fails: a system error before any fetch, decided by the
      error flag, with the client still released once. */
  lemma ScenarioCreateFails(continueOnPlanFailure: bool, continueOnMablError: bool, steps: seq<PollStep>)
    ensures var cfg := StepConfig(continueOnPlanFailure, continueOnMablError);
      var r := Call(cfg, Script(IOFailure, steps));
      && r.run.polls == 0
      && r.run.outcome.SystemError?
      && r.verdict == continueOnMablError
      && Count(r.run.ops, Close) == 1
  {
    var cfg := StepConfig(continueOnPlanFailure, continueOnMablError);
    CloseExactlyOnce(cfg, Script(IOFailure, steps));
  }
}

=== FILE: statuses.dfy ===
/**
 The completion and success decisions over a snapshot, and the plan-name
 fallback used in every report line.
 */
module Statuses {
  import opened Domain

  /** The statuses after which a plan no longer changes. */
  const CompleteStatuses: set<string> :=
    {"succeeded", "failed", "cancelled", "completed", "terminated"}

  /** Placeholder written when a plan or its name is missing. */
  const UnknownPlan: string := "<Unknown Plan>"

  /** ASCII lower-casing of one character. */
  function LowerChar(c: char): char {
    if 'A' <= c <= 'Z' then (c as int - 'A' as int + 'a' as int) as char else c
  }

  /** ASCII lower-casing of a status string, character by character. */
  function Lower(s: string): (r: string)
    ensures |r| == |s|
    ensures forall i :: 0 <= i < |s| ==> r[i] == LowerChar(s[i])
    ensures forall i :: 0 <= i < |r| ==> !('A' <= r[i] <= 'Z')
    decreases |s|
  {
    if |s| == 0 then "" else [LowerChar(s[0])] + Lower(s[1..])
  }

  /** Lower-casing twice is lower-casing once. */
  lemma LowerIdempotent(s: string)
    ensures Lower(Lower(s)) == Lower(s)
  {
  }

  /** Case-insensitive membership of a status in the terminal set. */
  predicate IsCompleteStatus(status: string) {
    Lower(status) in CompleteStatuses
  }

  /** Membership in the terminal set ignores case: a status and its
      lower-cased form are classified alike. */
  lemma CompleteStatusIgnoresCase(status: string)
    ensures IsCompleteStatus(status) <==> IsCompleteStatus(Lower(status))
  {
    LowerIdempotent(status);
  }

  /** The accumulating conjunction of the source's `acc &= p(x)` loops: every
      element is folded into the accumulator, none is skipped. */
  function Conjoin<T>(xs: seq<T>, p: T -> bool, acc: bool): (r: bool)
    ensures r <==> acc && forall i :: 0 <= i < |xs| ==> p(xs[i])
    decreases |xs|
  {
    if |xs| == 0 then acc
    else
      var rest := Conjoin(xs[1..], p, acc && p(xs[0]));
      assert forall i :: 1 <= i < |xs| ==> xs[i] == xs[1..][i - 1];
      rest
  }

  /** Folding a concatenation folds the first part, then carries its
      accumulator into the second part. */
  lemma {:induction false} ConjoinAppend<T>(xs: seq<T>, ys: seq<T>, p: T -> bool, acc: bool)
    ensures Conjoin(xs + ys, p, acc) == Conjoin(ys, p, Conjoin(xs, p, acc))
    decreases |xs|
  {
    if |xs| == 0 {
      assert xs + ys == ys;
    } else {
      assert (xs + ys)[1..] == xs[1..] + ys;
      ConjoinAppend(xs[1..], ys, p, acc && p(xs[0]));
    }
  }

  /** True when every plan of the snapshot is in a terminal status. */
  function AllPlansComplete(result: ExecutionResult): (r: bool)
    ensures r <==> forall i :: 0 <= i < |result.executions| ==>
                      Lower(result.executions[i].status) in CompleteStatuses
  {
    Conjoin(result.executions, (s: ExecutionSummary) => IsCompleteStatus(s.status), true)
  }

  /** True when every plan of the snapshot succeeded. */
  function AllPlansSuccess(result: ExecutionResult): (r: bool)
    ensures r <==> forall i :: 0 <= i < |result.executions| ==> result.executions[i].success
  {
    Conjoin(result.executions, (s: ExecutionSummary) => s.success, true)
  }

  /** The plan's name when both the descriptor and its name are present,
      the placeholder otherwise. */
  function SafePlanName(summary: ExecutionSummary): (r: string)
    ensures summary.plan.Some? && summary.plan.value.name.Some? ==>
              r == summary.plan.value.name.value
    ensures r == UnknownPlan || (summary.plan.Some? && summary.plan.value.name == Some(r))
  {
    if summary.plan.Some? && summary.plan.value.name.Some?
    then summary.plan.value.name.value
    else UnknownPlan
  }
}
